=== FILE: README.md ===
# bootimg_tools in Dafny

A model of the two tools that take an Android `boot.img`/`recovery.img`
apart and put it back together:

- **split** reads an image and writes three or four files: `boothdr.img`
  (the whole first page), `kernel.img`, `ramdisk.img` and, when the header's
  `unused` word is non-zero, `dtb.img`;
- **combine** reads those files and writes `result.img`.

An image is a 608-byte packed header record (`struct boot_img_hdr`) at
offset 0 of a header page. The kernel, the ramdisk and, on Samsung images,
a device tree follow it. Each section is padded with zeros to a whole
number of `page_size` pages.

The project has one module per concern:

| module | file | models |
|---|---|---|
| `Bytes` | `bytes.dfy` | bytes, the `unsigned` 32-bit word, its little-endian layout, and the two C conversions the tools make implicitly |
| `BootImg` | `boot_img.dfy` | the header record: encode, decode and the magic check |
| `Paging` | `paging.dfy` | page rounding: split's padded-size formula, combine's padding formula, and the proof that they agree |
| `Sections` | `sections.dfy` | the file names, and a directory modelled as a map from name to contents |
| `Split` | `split.dfy` | split's `do_part`, `do_hdr` and the order of sections in `main` |
| `Combine` | `combine.dfy` | combine's `do_part`, `do_hdr`, and the append and patch sequence in `main` |
| `RoundTrip` | `round_trip.dfy` | splitting what combine wrote |

How the model represents the outside world:

- **Input to split.** The whole image file, as a sequence of bytes. A cursor into it stands for the file position.
- **Input to combine.** The directory, as a map. A name that is not in the map is a file that cannot be opened.
- **Output files.** A `denied` set names the files that cannot be created.

Each tool's `do_part` is modelled twice:

- as pure functions: `Split.Extract` and `Combine.Append`;
- as methods with the tools' own copy loops: `Split.ExtractChunked` with `Split.CopyChunks`, and `Combine.AppendChunked`.

Each method is proved equal to its function. The whole runs, `Split.SplitImage` and `Combine.CombineImage`, are pure functions built on the functional `do_part`.

The model keeps two behaviours of the code that a reader might not expect.

**Split's 2048-byte chunk loop.**
- The loop reads the whole padded span of a section.
- It writes `sz % 2048` bytes of the last chunk, or 2048 when that remainder is zero.
- So a section file holds exactly the section's bytes only when the size and the padded size need the same number of chunks.
- A page size that divides 2048 guarantees this.
- With 4096-byte pages, padding can be written out, e.g. for a 100-byte section (`Split.WidePageWritesPadding`).
- With a page size that does not divide 2048, bytes left in the buffer by the previous chunk can be written again (`Split.StaleBufferRewritten`).

**Combine stores `do_part`'s `int` result in an unsigned field.**
- The `<= 0` test on that field therefore only catches a zero-length file.
- A section file that cannot be opened becomes a size of 0xFFFFFFFF, and the run completes (`Combine.OpenFailureNotCaught`).

Two places where the code differs from its own comments:

- **Split writes `dtb.img` whenever `unused` is non-zero and below 2^31** (the word is passed as an `int`, so a larger one arrives negative and ends the run without the file, `Split.WideUnusedFails`), with or without `-samsung`. The file comment says the device tree is only for Samsung images. In the code, `-samsung` only decides whether a zero `unused` draws a warning (`Split.SamsungOnlyWarns`).
- **A non-zero `second_size` is only warned about.** The second-bootloader section is not skipped. The device tree is looked for directly after the ramdisk.

## Model

| member | source | states |
|---|---|---|
| `Bytes.LeValueOfLeBytes` | bootimg.h:23-30 | reading back the four least-significant-first bytes of an `unsigned` word gives the word |
| `Bytes.LeBytesOfLeValue` | bootimg.h:23-30 | any four bytes are the little-endian form of the word they spell |
| `Bytes.Signed` | bootimg_split.c:138-150 | an unsigned size passed as `do_part`'s `int`: it lies in [-2^31, 2^31), is congruent to the word modulo 2^32, and equals the word below 2^31 |
| `Bytes.Stored` | bootimg_combine.c:135 | an `int` stored into an unsigned field is congruent to it modulo 2^32, and equal to it when it is in range |
| `Bytes.StoredMinusOne` | bootimg_combine.c:135-137 | the failure result -1 is stored as 0xFFFFFFFF |
| `Paging.PaddedSize` | bootimg_split.c:31 | the rounded length is a multiple of the page size, at least the size and less than size plus one page |
| `Paging.Padding` | bootimg_combine.c:49-50 | the zero count is less than one page, and zero exactly when the size is page aligned |
| `Paging.PaddingCompletesPage` | bootimg_combine.c:49-61 | size plus combine's padding equals split's padded size, so the two tools agree on where every section ends |
| `Paging.PaddedSizeIdempotent` | bootimg_split.c:31 | rounding a rounded length again changes nothing |
| `Paging.PaddedSizeIsLeast` | bootimg_split.c:31 | the rounded length is the least page multiple that holds the section |
| `Paging.AlignedIsPadded` | bootimg_split.c:31 | a page-aligned length rounds to itself |
| `Paging.KernelOf5000Bytes` | bootimg_split.c:31 | a 5000-byte kernel on 2048-byte pages occupies 6144 bytes, 1144 of them padding |
| `BootImg.Encode` | bootimg.h:24-62 | the packed record is 608 bytes: 8 + 10×4 + 16 + 512 + 8×4 |
| `BootImg.EncodeLayout` | bootimg.h:27-61 | the fields land in declaration order: magic @0, word f @8+4f (kernel_size @8, ramdisk_size @16, second_size @24, page_size @36, unused @40), name @48, cmdline @64, id @576 |
| `BootImg.EncodeIsPacked` | bootimg.h:24-62 | the record is the fields laid end to end with no gaps |
| `BootImg.Decode` | bootimg.h:24-62 | the header read from a buffer re-encodes to the buffer's first 608 bytes |
| `BootImg.DecodeEncode` | bootimg.h:24-62 | decoding an encoded header gives the header back |
| `BootImg.EncodeDecode` | bootimg.h:24-62 | encoding the header read from a 608-byte record gives the record back |
| `BootImg.EncodeInjective` | bootimg.h:24-62 | two headers with the same record are equal |
| `BootImg.DecodePrefix` | bootimg_split.c:68 | only the first `sizeof(struct boot_img_hdr)` bytes decide the header |
| `BootImg.MagicCheck` | bootimg.h:18-27 | the magic check passes exactly when the first 8 bytes are "ANDROID!" |
| `BootImg.WithWord` | bootimg.h:30-50 | setting one word changes that word of the header and nothing else |
| `BootImg.WithWordLocal` | bootimg.h:30-48 | setting one word rewrites the 4 bytes at its offset with its little-endian form, and leaves every other byte of the record alone |
| `Split.LastWriteCompletes` | bootimg_split.c:40-46 | the full chunks plus the shortened last write add up to the section size |
| `Split.ChunkedOutput` | bootimg_split.c:32-53 | the loop writes all chunks but the last in full, then the last write's length; this is exactly the first `sz` bytes of the span when size and span need the same number of chunks |
| `Split.AlignedPageKeepsChunkCount` | bootimg_split.c:31-46 | when the page size divides 2048, padding never adds a chunk, so the file is exact |
| `Split.AlignedSpanKeepsChunkCount` | bootimg_split.c:102-103 | the header page, whose size is its own page size, is copied exactly |
| `Split.WidePageWritesPadding` | bootimg_split.c:32-53 | with 4096-byte pages, a 100-byte section is written as 2148 bytes of the span |
| `Split.StaleBufferRewritten` | bootimg_split.c:19-53 | with 3000-byte pages, a 2000-byte section gets the span plus 1048 bytes left in the buffer |
| `Split.Extract` | bootimg_split.c:15-62 | `sz <= 0` returns `sz` with nothing read or created; otherwise the result is 0 or -1; success happens exactly when the file can be created and the padded span is there; on success the cursor advances by the padded size; the file is the first `sz` bytes when the chunk counts agree; no other file changes |
| `Split.ExtractChunked` | bootimg_split.c:15-62 | the chunk-loop implementation computes the same outcome as `Extract` |
| `Split.CopyChunks` | bootimg_split.c:31-53 | the loop succeeds exactly when the padded span is there; it then ends at the end of the span having written `ChunkedOutput`; otherwise it stops at the chunk holding the end of the image, having written the whole chunks before it |
| `Split.ExtractWhole` | bootimg_split.c:31-57 | a section whose padded span fits is written as the chunked output of that span, and the cursor moves past it |
| `Split.ExtractShort` | bootimg_split.c:34-37 | a short image fails with -1 and leaves a file holding the whole chunks read before the short read |
| `Split.Accepts` | bootimg_split.c:75-88 | split accepts a header when it has the magic and non-zero kernel and ramdisk sizes |
| `Split.CaptureHeader` | bootimg_split.c:64-104 | a short image, a wrong magic, or a zero kernel or ramdisk size fails before any file is written; otherwise, for a page size in (0, 2^31) held by an image whose boothdr.img is not denied, the first `page_size` bytes become boothdr.img, and the cursor is left at `page_size` |
| `Split.HeaderPageCaptured` | bootimg_split.c:90-103 | an accepted header with any page size in (0, 2^31), on an image holding that page, captures exactly the page and leaves the cursor after it; the 2048-byte chunking never affects the header page, because its padded span equals its size |
| `Split.SplitImage` | bootimg_split.c:135-152 | a rejected header writes nothing; success writes boothdr, kernel and ramdisk; on success, dtb.img is written exactly when `unused` is non-zero; there is a second-size warning exactly when `second_size` is non-zero, and a device-tree warning exactly under `-samsung` with `unused` zero |
| `Split.SplitSections` | bootimg_split.c:138-152 | the same facts for the sections after the header page |
| `Split.ExpectedFiles` | bootimg_split.c:138-152 | the reference split of an image: boothdr.img, kernel.img, ramdisk.img, plus dtb.img when `unused` is non-zero |
| `Split.SplitLayout` | bootimg_split.c:135-152 | an image holding every declared section, on a page size dividing 2048, splits into exactly the expected files with the warnings its header calls for |
| `Split.KernelAndRamdisk` | bootimg_split.c:138-142 | such an image yields its kernel and ramdisk bytes, and the cursor ends where the device tree starts |
| `Split.DtbExtracted` | bootimg_split.c:147-152 | such an image with non-zero `unused` yields its device tree bytes as dtb.img |
| `Split.WideUnusedFails` | bootimg_split.c:147-152 | an `unused` word of 2^31 or more arrives at `do_part` as a negative size: the run fails and dtb.img is not written |
| `Split.SplitTruncatedKernel` | bootimg_split.c:135-139 | an accepted image too short for its kernel fails without creating ramdisk.img or dtb.img, whatever the kernel size word, the denied files or the length of the first page |
| `Split.ZeroImageRejected` | bootimg_split.c:75-78 | a file of 608 zero bytes needs no page size, and split fails on it without writing a file |
| `Split.SamsungOnlyWarns` | bootimg_split.c:144-152 | `-samsung` changes neither the outcome nor the files written |
| `Combine.PageOf` | bootimg_combine.c:27-61 | a file as it lands in the image takes the padded length of the file |
| `Combine.Append` | bootimg_combine.c:13-70 | a missing file returns -1 and appends nothing; otherwise it returns the unpadded length, and the output grows by the file followed by zeros up to the padded length |
| `Combine.AppendChunked` | bootimg_combine.c:27-61 | the 4096-byte copy loop and padding loop compute the same outcome as `Append` |
| `Combine.CopyHeader` | bootimg_combine.c:72-104 | the result is positive exactly when boothdr.img exists, holds a record, has the magic and has `second_size` zero; nothing is written otherwise; when accepted, the whole of boothdr.img is copied, page aligned |
| `Combine.PatchHeader` | bootimg_combine.c:149-158 | writing the header back replaces exactly the first 608 bytes, and the image then decodes to that header |
| `Combine.CombineImage` | bootimg_combine.c:125-158 | result.img not created exactly when it is denied; a rejected header leaves it empty |
| `Combine.HeaderAccepted` | bootimg_combine.c:84-101 | combine accepts boothdr.img when it exists, holds a whole header record, has the magic, and has `second_size` zero |
| `Combine.Assembled` | bootimg_combine.c:132-147 | result.img before the seek back to offset 0: the whole of boothdr.img, kernel.img, ramdisk.img and, in Samsung mode, dtb.img, each page aligned and each missing file contributing nothing; it is at least one header record long |
| `Combine.FinalHeader` | bootimg_combine.c:135-155 | the header written back: boothdr.img's header with `kernel_size`, `ramdisk_size` and (Samsung only) `unused` set to `do_part`'s results stored as unsigned |
| `Combine.CombineResult` | bootimg_combine.c:132-158 | combine completes exactly when the header is accepted and no section file is empty; the image is then the assembled pages with the final header written over offset 0 |
| `Combine.SizeCheck` | bootimg_combine.c:135-146 | the `<= 0` test on a stored size fails exactly for an empty file, not for a missing one |
| `Combine.SectionOffsets` | bootimg_combine.c:132-147 | each section starts at the sum of the padded lengths before it: header page, then kernel, ramdisk and, in Samsung mode, dtb; each is followed by zeros up to its page boundary; a section file that cannot be opened takes no room, and the next section starts where it would have |
| `Combine.AppendContents` | bootimg_combine.c:20-25 | `do_part` appends nothing for a file that cannot be opened, and otherwise the file's bytes padded to a whole page |
| `Combine.FinalHeaderBytes` | bootimg_combine.c:135-158 | the written record is boothdr.img's first 608 bytes except `kernel_size`, `ramdisk_size` and (Samsung only) `unused`, which hold the stored section results |
| `Combine.SizeWordsLocal` | bootimg.h:30-48 | setting the kernel, ramdisk and optionally unused words rewrites their bytes and no others |
| `Combine.OpenFailureNotCaught` | bootimg_combine.c:135-137 | a missing kernel.img is not caught: the run completes with `kernel_size` 0xFFFFFFFF |
| `Combine.EmptyKernelAborts` | bootimg_combine.c:135-137 | an empty kernel.img stops the run after the header page, and the header is not rewritten |
| `RoundTrip.SplitCombined` | bootimg_combine.c:132-158 | for one-page boothdr.img on a page size dividing 2048, non-empty sections and `unused` zero outside Samsung mode: combine completes, and split returns kernel, ramdisk and (Samsung) dtb unchanged, plus boothdr.img carrying the final header, with no warnings |
| `RoundTrip.SplitCombinedFixedPoint` | bootimg_split.c:96-103 | when boothdr.img already records the section sizes, combining then splitting gives back exactly the files combine read |
| `RoundTrip.SplitPatched` | bootimg_split.c:135-152 | an image whose header describes sections laid out back to back after the first page splits into those sections |
| `RoundTrip.AssembledSlices` | bootimg_combine.c:132-147 | the sections combine assembles lie where the final header says they are |
| `RoundTrip.FinalHeaderFields` | bootimg_combine.c:135-147 | for a combinable directory the final header records the section lengths and keeps the magic, page size and zero `second_size` |

## Left out

- bootimg_print.c: it only prints header fields. Its magic check is the one `BootImg.MagicCheck` states.
- Argument parsing in every `main`: the flag and the image are parameters. This includes split opening `argv[1]` rather than the image name when `-samsung` is given (bootimg_split.c:128).
- Messages, `printf`, `errno` and `fclose`: these are output only.
- Write and seek failures (`fwrite`, `fseek`): every other failure is modelled as one abstract failure outcome. In split, and in combine's copy loop (bootimg_combine.c:39-43), a write error makes `do_part` return -1.
- Combine's padding loop (bootimg_combine.c:52-61) tests the count `fwrite` returns with `n < 0`, which never holds. So a failed write returns 0, leaves `left` unchanged and loops forever, and a short write is retried. The model has no write failures, so it does not model this hang.
- Combine's read errors: `fread` reports an error like end of file, so the copy ends there. The model treats every file as read whole.
- A page size of zero: neither tool checks it before dividing. Split requires a non-zero page size of an image whose header split accepts (`Split.PageSizeSet`), and combine requires a positive page size below 2^31 (`Combine.SaneInputs`).
- Machine-integer overflow: sizes are unbounded integers. Combine's inputs are bounded below 2^31 bytes. Split's `sz + page_sz - 1` (bootimg_split.c:31), which overflows an `int` for sizes near 2^31, is not modelled. The exception is the two conversions between `unsigned` header words and `int`, which are modelled (`Bytes.Signed`, `Bytes.Stored`).
- Split's initial buffer contents: the buffer starts uninitialised. The model starts it with zeros. No byte of its initial contents is ever written, because the first chunk overwrites at least as much as is written from it.
- The second-bootloader payload, the addresses and the `id` checksum: they are carried opaquely and never interpreted.
- Split.Extract: the contract states the exact file contents only when the size and the padded size need the same number of chunks. In every other case the file is the loop's chunked output, which `Split.ExtractWhole` and `Split.ExtractShort` state.

=== FILE: boot_img.dfy ===
/**
 The boot image header (`struct boot_img_hdr`): a packed 608-byte record
 at offset 0 of an image.  The encoding is given as an offset table, the
 way the record's fields are laid out in memory with no gaps; a lemma
 shows that it is the concatenation of the fields in declaration order.
 */
module BootImg {
  import opened Bytes

  const BootMagicSize: nat := 8
  const BootNameSize: nat := 16
  const BootArgsSize: nat := 512
  const IdWords: nat := 8

  /** The ten `unsigned` fields between `magic` and `name`. */
  const WordFields: nat := 10

  /** "ANDROID!" in ASCII. */
  const BootMagic: seq<byte> := [0x41, 0x4E, 0x44, 0x52, 0x4F, 0x49, 0x44, 0x21]

  const WordsOffset: nat := BootMagicSize
  const NameOffset: nat := WordsOffset + 4 * WordFields
  const CmdlineOffset: nat := NameOffset + BootNameSize
  const IdOffset: nat := CmdlineOffset + BootArgsSize
  const HeaderSize: nat := IdOffset + 4 * IdWords

  // Positions of the words in declaration order.
  const KernelSizeField: nat := 0
  const KernelAddrField: nat := 1
  const RamdiskSizeField: nat := 2
  const RamdiskAddrField: nat := 3
  const SecondSizeField: nat := 4
  const SecondAddrField: nat := 5
  const TagsAddrField: nat := 6
  const PageSizeField: nat := 7
  const UnusedField: nat := 8
  const OsVersionField: nat := 9

  type MagicBuf = s: seq<byte> | |s| == 8 witness [0, 0, 0, 0, 0, 0, 0, 0]
  type NameBuf = s: seq<byte> | |s| == 16 witness seq(16, _ => 0)
  type ArgsBuf = s: seq<byte> | |s| == 512 witness seq(512, _ => 0)
  type IdBuf = s: seq<u32> | |s| == 8 witness [0, 0, 0, 0, 0, 0, 0, 0]

  /** The header.  `name` and `cmdline` are carried as raw fixed-width buffers;
      `unused` holds the device tree size on Samsung images. */
  datatype Header = Header(
    magic: MagicBuf,
    kernelSize: u32,
    kernelAddr: u32,
    ramdiskSize: u32,
    ramdiskAddr: u32,
    secondSize: u32,
    secondAddr: u32,
    tagsAddr: u32,
    pageSize: u32,
    unused: u32,
    osVersion: u32,
    name: NameBuf,
    cmdline: ArgsBuf,
    id: IdBuf)

  /** The ten words in declaration order. */
  function Words(h: Header): (w: seq<u32>)
    ensures |w| == WordFields
  {
    [h.kernelSize, h.kernelAddr, h.ramdiskSize, h.ramdiskAddr, h.secondSize,
     h.secondAddr, h.tagsAddr, h.pageSize, h.unused, h.osVersion]
  }

  function FieldOffset(f: nat): (o: nat)
    requires f < WordFields
  {
    WordsOffset + 4 * f
  }

  predicate HasMagic(h: Header) {
    h.magic == BootMagic
  }

  /** Byte `i` of the in-memory record. */
  function ByteAt(h: Header, i: nat): (v: byte)
    requires i < HeaderSize
  {
    if i < WordsOffset then h.magic[i]
    else if i < NameOffset then LeBytes(Words(h)[(i - WordsOffset) / 4])[(i - WordsOffset) % 4]
    else if i < CmdlineOffset then h.name[i - NameOffset]
    else if i < IdOffset then h.cmdline[i - CmdlineOffset]
    else LeBytes(h.id[(i - IdOffset) / 4])[(i - IdOffset) % 4]
  }

  function Encode(h: Header): (b: seq<byte>)
    ensures |b| == HeaderSize == 608
  {
    seq(HeaderSize, i requires 0 <= i < HeaderSize => ByteAt(h, i))
  }

  /** Where each field lands in the record: magic @0, the words @8 + 4f
      (kernel_size @8, ramdisk_size @16, second_size @24, page_size @36,
      unused @40), name @48, cmdline @64, id @576. */
  lemma EncodeLayout(h: Header)
    ensures Encode(h)[..BootMagicSize] == h.magic
    ensures forall f :: 0 <= f < WordFields ==> Encode(h)[FieldOffset(f)..FieldOffset(f) + 4] == LeBytes(Words(h)[f])
    ensures Encode(h)[NameOffset..CmdlineOffset] == h.name
    ensures Encode(h)[CmdlineOffset..IdOffset] == h.cmdline
    ensures forall k :: 0 <= k < IdWords ==> Encode(h)[IdOffset + 4 * k..IdOffset + 4 * k + 4] == LeBytes(h.id[k])
  {
    forall f | 0 <= f < WordFields {
      EncodeWord(h, f);
    }
    forall k | 0 <= k < IdWords {
      EncodeId(h, k);
    }
  }

  lemma EncodeWord(h: Header, f: nat)
    requires f < WordFields
    ensures Encode(h)[FieldOffset(f)..FieldOffset(f) + 4] == LeBytes(Words(h)[f])
  {
    forall j | 0 <= j < 4
      ensures Encode(h)[FieldOffset(f) + j] == LeBytes(Words(h)[f])[j]
    {
      EncodeWordByte(h, f, j);
    }
  }

  lemma EncodeWordByte(h: Header, f: nat, j: nat)
    requires f < WordFields && j < 4
    ensures Encode(h)[FieldOffset(f) + j] == LeBytes(Words(h)[f])[j]
  {
    var i := FieldOffset(f) + j;
    assert (i - WordsOffset) / 4 == f && (i - WordsOffset) % 4 == j;
  }

  lemma EncodeId(h: Header, k: nat)
    requires k < IdWords
    ensures Encode(h)[IdOffset + 4 * k..IdOffset + 4 * k + 4] == LeBytes(h.id[k])
  {
    forall j | 0 <= j < 4
      ensures Encode(h)[IdOffset + 4 * k + j] == LeBytes(h.id[k])[j]
    {
      EncodeIdByte(h, k, j);
    }
  }

  lemma EncodeIdByte(h: Header, k: nat, j: nat)
    requires k < IdWords && j < 4
    ensures Encode(h)[IdOffset + 4 * k + j] == LeBytes(h.id[k])[j]
  {
    var i := IdOffset + 4 * k + j;
    assert (i - IdOffset) / 4 == k && (i - IdOffset) % 4 == j;
  }

  /** The word stored at `off` in little-endian order. */
  function WordAt(b: seq<byte>, off: nat): (x: u32)
    requires off + 4 <= |b|
  {
    LeValue(b[off..off + 4])
  }

  /** Reads the header from the first `HeaderSize` bytes of `b`. */
  function Decode(b: seq<byte>): (h: Header)
    requires |b| >= HeaderSize
    ensures Encode(h) == b[..HeaderSize]
  {
    var w := (f: nat) requires f < WordFields => WordAt(b, FieldOffset(f));
    var h := Header(
      b[..BootMagicSize],
      w(0), w(1), w(2), w(3), w(4), w(5), w(6), w(7), w(8), w(9),
      b[NameOffset..CmdlineOffset],
      b[CmdlineOffset..IdOffset],
      seq(IdWords, k requires 0 <= k < IdWords => WordAt(b, IdOffset + 4 * k)));
    EncodeDecoded(b, h);
    h
  }

  lemma EncodeDecoded(b: seq<byte>, h: Header)
    requires |b| >= HeaderSize
    requires h.magic == b[..BootMagicSize]
    requires forall f :: 0 <= f < WordFields ==> Words(h)[f] == WordAt(b, FieldOffset(f))
    requires h.name == b[NameOffset..CmdlineOffset] && h.cmdline == b[CmdlineOffset..IdOffset]
    requires forall k :: 0 <= k < IdWords ==> h.id[k] == WordAt(b, IdOffset + 4 * k)
    ensures Encode(h) == b[..HeaderSize]
  {
    forall i | 0 <= i < HeaderSize
      ensures ByteAt(h, i) == b[i]
    {
      if WordsOffset <= i < NameOffset {
        var f, j := (i - WordsOffset) / 4, (i - WordsOffset) % 4;
        WordByte(b, FieldOffset(f), j);
        assert i == FieldOffset(f) + j;
      } else if IdOffset <= i {
        var k, j := (i - IdOffset) / 4, (i - IdOffset) % 4;
        WordByte(b, IdOffset + 4 * k, j);
        assert i == IdOffset + 4 * k + j;
      }
    }
  }

  lemma WordByte(b: seq<byte>, off: nat, j: nat)
    requires off + 4 <= |b| && j < 4
    ensures LeBytes(WordAt(b, off))[j] == b[off + j]
  {
    LeBytesOfLeValue(b[off..off + 4]);
  }

  /** Decoding an encoded header gives the header back. */
  lemma DecodeEncode(h: Header)
    ensures Decode(Encode(h)) == h
  {
    EncodeInjective(Decode(Encode(h)), h);
  }

  /** Two headers with the same record are the same header. */
  lemma EncodeInjective(h: Header, h': Header)
    requires Encode(h) == Encode(h')
    ensures h == h'
  {
    EncodeLayout(h);
    EncodeLayout(h');
    forall f | 0 <= f < WordFields
      ensures Words(h)[f] == Words(h')[f]
    {
      LeBytesInjective(Words(h)[f], Words(h')[f]);
    }
    forall k | 0 <= k < IdWords
      ensures h.id[k] == h'.id[k]
    {
      LeBytesInjective(h.id[k], h'.id[k]);
    }
    assert Words(h) == Words(h');
  }

  lemma LeBytesInjective(x: u32, y: u32)
    requires LeBytes(x) == LeBytes(y)
    ensures x == y
  {
    LeValueOfLeBytes(x);
    LeValueOfLeBytes(y);
  }

  /** Encoding the header read from a 608-byte record gives the record back. */
  lemma EncodeDecode(b: seq<byte>)
    requires |b| == HeaderSize
    ensures Encode(Decode(b)) == b
  {
  }

  /** Decoding looks at the first `HeaderSize` bytes only. */
  lemma DecodePrefix(b: seq<byte>)
    requires |b| >= HeaderSize
    ensures Decode(b) == Decode(b[..HeaderSize])
  {
    EncodeInjective(Decode(b), Decode(b[..HeaderSize]));
  }

  /** The magic check looks at exactly the first eight bytes. */
  lemma MagicCheck(b: seq<byte>)
    requires |b| >= HeaderSize
    ensures HasMagic(Decode(b)) <==> b[..BootMagicSize] == BootMagic
  {
  }

  /** The record is the fields laid end to end in declaration order. */
  lemma EncodeIsPacked(h: Header)
    ensures Encode(h) == h.magic + WordsBytes(Words(h)) + h.name + h.cmdline + WordsBytes(h.id)
  {
    var b := Encode(h);
    var c := h.magic + WordsBytes(Words(h)) + h.name + h.cmdline + WordsBytes(h.id);
    WordsBytesLength(Words(h));
    WordsBytesLength(h.id);
    assert |c| == HeaderSize;
    forall i | 0 <= i < HeaderSize
      ensures b[i] == c[i]
    {
      if i < WordsOffset {
        assert c[i] == h.magic[i];
      } else if i < NameOffset {
        WordsBytesAt(Words(h), (i - WordsOffset) / 4, (i - WordsOffset) % 4);
      } else if IdOffset <= i {
        WordsBytesAt(h.id, (i - IdOffset) / 4, (i - IdOffset) % 4);
      }
    }
  }

  /** A run of words, each little-endian. */
  function WordsBytes(ws: seq<u32>): (b: seq<byte>)
  {
    if ws == [] then [] else LeBytes(ws[0]) + WordsBytes(ws[1..])
  }

  lemma {:induction false} WordsBytesLength(ws: seq<u32>)
    ensures |WordsBytes(ws)| == 4 * |ws|
  {
    if ws != [] {
      WordsBytesLength(ws[1..]);
    }
  }

  lemma {:induction false} WordsBytesAt(ws: seq<u32>, k: nat, j: nat)
    requires k < |ws| && j < 4
    ensures |WordsBytes(ws)| == 4 * |ws|
    ensures WordsBytes(ws)[4 * k + j] == LeBytes(ws[k])[j]
  {
    WordsBytesLength(ws);
    if k > 0 {
      WordsBytesAt(ws[1..], k - 1, j);
    }
  }

  /** Replaces word `f`; every other field is kept. */
  function WithWord(h: Header, f: nat, v: u32): (h': Header)
    requires f < WordFields
    ensures Words(h') == Words(h)[f := v]
    ensures h'.magic == h.magic && h'.name == h.name && h'.cmdline == h.cmdline && h'.id == h.id
  {
    match f
    case 0 => h.(kernelSize := v)
    case 1 => h.(kernelAddr := v)
    case 2 => h.(ramdiskSize := v)
    case 3 => h.(ramdiskAddr := v)
    case 4 => h.(secondSize := v)
    case 5 => h.(secondAddr := v)
    case 6 => h.(tagsAddr := v)
    case 7 => h.(pageSize := v)
    case 8 => h.(unused := v)
    case _ => h.(osVersion := v)
  }

  /** Byte `i` of the record lies inside word `f`. */
  predicate InWord(i: int, f: nat)
    requires f < WordFields
  {
    FieldOffset(f) <= i < FieldOffset(f) + 4
  }

  /** Setting one word rewrites the four bytes at its offset and nothing else. */
  lemma WithWordLocal(h: Header, f: nat, v: u32)
    requires f < WordFields
    ensures Encode(WithWord(h, f, v))[FieldOffset(f)..FieldOffset(f) + 4] == LeBytes(v)
    ensures forall i :: 0 <= i < HeaderSize && !InWord(i, f) ==> Encode(WithWord(h, f, v))[i] == Encode(h)[i]
  {
    var h' := WithWord(h, f, v);
    EncodeWord(h', f);
    forall i | 0 <= i < HeaderSize && !InWord(i, f)
      ensures Encode(h')[i] == Encode(h)[i]
    {
      if WordsOffset <= i < NameOffset {
        assert (i - WordsOffset) / 4 != f;
      }
    }
  }
}

=== FILE: bytes.dfy ===
/**
 Byte-level building blocks shared by the boot-image tools: bytes, the
 unsigned 32-bit words of the header, their little-endian layout, and the
 two C integer conversions the tools perform implicitly (an `unsigned`
 field passed where an `int` is expected, and an `int` stored into an
 `unsigned` field).
 */
module Bytes {

  /** A byte is an octet value. */
  type byte = x: int | 0 <= x < 0x100

  const Two31: int := 0x8000_0000
  const Two32: int := 0x1_0000_0000

  /** The C `unsigned` of the header on the targets the tools run on. */
  type u32 = x: int | 0 <= x < 0x1_0000_0000

  /** `n` zero bytes. */
  function Zeros(n: nat): (z: seq<byte>)
    ensures |z| == n
    ensures forall i :: 0 <= i < n ==> z[i] == 0
  {
    seq(n, _ => 0)
  }

  /** Least significant byte first. */
  function LeBytes(x: u32): (b: seq<byte>)
    ensures |b| == 4
  {
    [x % 0x100, x / 0x100 % 0x100, x / 0x1_0000 % 0x100, x / 0x100_0000]
  }

  /** The word whose little-endian bytes are `b`. */
  function LeValue(b: seq<byte>): (x: u32)
    requires |b| == 4
  {
    b[0] as int + 0x100 * (b[1] as int) + 0x1_0000 * (b[2] as int) + 0x100_0000 * (b[3] as int)
  }

  lemma LeValueOfLeBytes(x: u32)
    ensures LeValue(LeBytes(x)) == x
  {
    var q1 := x / 0x100;
    var q2 := q1 / 0x100;
    var q3 := q2 / 0x100;
    assert x == x % 0x100 + 0x100 * q1;
    assert q1 == q1 % 0x100 + 0x100 * q2;
    assert q2 == q2 % 0x100 + 0x100 * q3;
    assert x / 0x1_0000 == q2;
    assert x / 0x100_0000 == q3;
  }

  lemma LeBytesOfLeValue(b: seq<byte>)
    requires |b| == 4
    ensures LeBytes(LeValue(b)) == b
  {
    var x := LeValue(b);
    var q2: int := b[2] as int + 0x100 * (b[3] as int);
    var q1: int := b[1] as int + 0x100 * q2;
    assert x == b[0] as int + 0x100 * q1;
    DivModOf(x, b[0], q1);
    DivModOf(q1, b[1], q2);
    DivModOf(q2, b[2], b[3]);
    assert x / 0x1_0000 == q2;
    assert x / 0x100_0000 == b[3];
  }

  /** Division by the radix undoes one digit step. */
  lemma DivModOf(x: int, lo: byte, hi: int)
    requires x == lo + 0x100 * hi
    ensures x % 0x100 == lo && x / 0x100 == hi
  {
  }

  /** An `unsigned` value read through a C `int`: two's complement. */
  function Signed(x: u32): (r: int)
    ensures -Two31 <= r < Two31
    ensures (r - x) % Two32 == 0
    ensures x < Two31 ==> r == x
  {
    if x < Two31 then x else x - Two32
  }

  /** A C `int` stored into an `unsigned` field: reduction modulo 2^32. */
  function Stored(x: int): (r: u32)
    ensures (r - x) % Two32 == 0
    ensures 0 <= x < Two32 ==> r == x
  {
    x % Two32
  }

  /** Storing `-1`, the tools' failure result, yields the all-ones word. */
  lemma StoredMinusOne()
    ensures Stored(-1) == 0xFFFF_FFFF
  {
  }
}

=== FILE: combine.dfy ===
/**
 The combine tool: copies boothdr.img, kernel.img, ramdisk.img and, in
 Samsung mode, dtb.img into result.img, each followed by zero bytes up to
 the next page boundary, then writes the header back over offset 0 with
 the section sizes filled in.

 `do_part` returns an `int` (the byte count, or -1 when the file cannot be
 opened) and combine stores it straight into an unsigned header field, so
 the `<= 0` test that follows only ever catches a zero-length file; an
 open failure is stored as 0xFFFFFFFF and the run carries on.
 */
module Combine {
  import opened Bytes
  import opened Paging
  import opened BootImg
  import opened Sections

  const ResultName: string := "result.img"

  /** Size of combine's copy buffer. */
  const CopyBuf: nat := 4096

  /** `do_part`'s result and the output stream after it. */
  datatype Appended = Appended(total: int, out: seq<byte>)

  /** A file as it lands in the image: its bytes, then zeros to the page boundary. */
  function PageOf(data: seq<byte>, p: nat): (r: seq<byte>)
    requires p > 0
    ensures |r| == PaddedSize(|data|, p)
  {
    PaddingCompletesPage(|data|, p);
    data + Zeros(Padding(|data|, p))
  }

  /** Appends file `name` to `out`, page aligned; -1 and no output when the
      file cannot be opened. */
  function Append(out: seq<byte>, name: string, pageSz: int, files: Files): (r: Appended)
    requires pageSz > 0
    requires name in files ==> |files[name]| < Two31
    ensures name !in files ==> r.total == -1 && r.out == out
    ensures name in files ==> r.total == |files[name]|
    ensures name in files ==> |r.out| == |out| + PaddedSize(|files[name]|, pageSz)
    ensures name in files ==> r.out[..|out| + |files[name]|] == out + files[name]
    ensures forall i :: name in files && |out| + |files[name]| <= i < |r.out| ==> r.out[i] == 0
  {
    if name !in files then Appended(-1, out)
    else
      var data := files[name];
      var o := out + PageOf(data, pageSz);
      assert o[..|out| + |data|] == out + data;
      Appended(|data|, o)
  }

  lemma AppendIsPiece(out: seq<byte>, name: string, pageSz: int, files: Files)
    requires pageSz > 0
    requires name in files ==> |files[name]| < Two31
    ensures Append(out, name, pageSz, files).out == out + Piece(files, name, pageSz)
  {
  }

  /** `Append` as combine's `do_part` computes it: copy in 4096-byte reads until end
      of file, then write the padding zeros in pieces of at most 4096. */
  method AppendChunked(out: seq<byte>, name: string, pageSz: int, files: Files) returns (r: Appended)
    requires pageSz > 0
    requires name in files ==> |files[name]| < Two31
    ensures r == Append(out, name, pageSz, files)
  {
    if name !in files {
      return Appended(-1, out);
    }
    var data := files[name];
    var o := out;
    var total := 0;
    while total < |data|
      invariant 0 <= total <= |data|
      invariant o == out + data[..total]
    {
      var n := if |data| - total < CopyBuf then |data| - total else CopyBuf;
      o := o + data[total..total + n];
      total := total + n;
    }
    assert data[..total] == data;
    var m := total % pageSz;
    var left := if m != 0 then pageSz - m else 0;
    while left > 0
      invariant 0 <= left <= Padding(total, pageSz)
      invariant o == out + data + Zeros(Padding(total, pageSz) - left)
    {
      var n := if left < CopyBuf then left else CopyBuf;
      o := o + Zeros(n);
      left := left - n;
    }
    return Appended(total, o);
  }

  /** The header checks combine makes before it appends anything. */
  predicate HeaderAccepted(files: Files) {
    && BootHdrName in files
    && |files[BootHdrName]| >= HeaderSize
    && HasMagic(Decode(files[BootHdrName]))
    && Decode(files[BootHdrName]).secondSize == 0
  }

  /** What combine silently relies on: file sizes fit an `int`, and the page
      size is a positive `int` (it is never checked before `%`). */
  predicate SaneInputs(files: Files) {
    && (forall n :: n in files ==> |files[n]| < Two31)
    && (HeaderAccepted(files) ==> 0 < Decode(files[BootHdrName]).pageSize < Two31)
  }

  /** Reads and checks the header from boothdr.img, then copies the whole
      file to the (empty) output as the first page. */
  function CopyHeader(files: Files): (r: Appended)
    requires SaneInputs(files)
    ensures r.total > 0 <==> HeaderAccepted(files)
    ensures !HeaderAccepted(files) ==> r.out == []
    ensures HeaderAccepted(files) ==>
              r.out == PageOf(files[BootHdrName], Decode(files[BootHdrName]).pageSize)
  {
    if BootHdrName !in files then Appended(-1, [])
    else
      var b := files[BootHdrName];
      if |b| < HeaderSize then Appended(-1, [])
      else
        var h := Decode(b);
        if !HasMagic(h) then Appended(-1, [])
        else if h.secondSize != 0 then Appended(-1, [])
        else Append([], BootHdrName, Signed(h.pageSize), files)
  }

  /** Seeks back to offset 0 and writes the header record over the first
      `HeaderSize` bytes of the output. */
  function PatchHeader(out: seq<byte>, h: Header): (r: seq<byte>)
    requires |out| >= HeaderSize
    ensures |r| == |out|
    ensures r[..HeaderSize] == Encode(h) && Decode(r) == h
    ensures r[HeaderSize..] == out[HeaderSize..]
  {
    var r := Encode(h) + out[HeaderSize..];
    assert r[..HeaderSize] == Encode(h);
    DecodePrefix(r);
    DecodeEncode(h);
    r
  }

  datatype CombineOutcome =
    | NotCreated              // result.img could not be created
    | Aborted(partial: seq<byte>)   // what result.img holds when the run stops
    | Done(image: seq<byte>)

  /** The whole combine run. */
  function CombineImage(files: Files, samsung: bool, denied: set<string>): (r: CombineOutcome)
    requires SaneInputs(files)
    ensures ResultName in denied <==> r.NotCreated?
    ensures ResultName !in denied && !HeaderAccepted(files) ==> r == Aborted([])
  {
    if ResultName in denied then NotCreated
    else
      var hc := CopyHeader(files);
      if hc.total <= 0 then Aborted(hc.out)
      else
        var h0 := Decode(files[BootHdrName]);
        var page := Signed(h0.pageSize);
        var k := Append(hc.out, KernelName, page, files);
        var h1 := h0.(kernelSize := Stored(k.total));
        // `hdr.kernel_size <= 0` on an unsigned field
        if h1.kernelSize == 0 then Aborted(k.out)
        else
          var rd := Append(k.out, RamdiskName, page, files);
          var h2 := h1.(ramdiskSize := Stored(rd.total));
          if h2.ramdiskSize == 0 then Aborted(rd.out)
          else if !samsung then Done(PatchHeader(rd.out, h2))
          else
            var d := Append(rd.out, DtbName, page, files);
            var h3 := h2.(unused := Stored(d.total));
            if h3.unused == 0 then Aborted(d.out)
            else Done(PatchHeader(d.out, h3))
  }

  /** `do_part`'s result for file `name`: its length, or -1 when it cannot be opened. */
  function SectionResult(files: Files, name: string): (n: int) {
    if name in files then |files[name]| else -1
  }

  /** What the `<= 0` test on the stored size lets through: a missing file
      (stored as 0xFFFFFFFF) or a non-empty one. */
  predicate PassesSizeCheck(files: Files, name: string) {
    name !in files || |files[name]| > 0
  }

  predicate Completes(files: Files, samsung: bool) {
    && HeaderAccepted(files)
    && PassesSizeCheck(files, KernelName)
    && PassesSizeCheck(files, RamdiskName)
    && (samsung ==> PassesSizeCheck(files, DtbName))
  }

  function PageSize(files: Files): (p: nat)
    requires SaneInputs(files) && HeaderAccepted(files)
  {
    Decode(files[BootHdrName]).pageSize
  }

  /** A section as it lands in the output; nothing when it cannot be opened. */
  function Piece(files: Files, name: string, p: nat): (r: seq<byte>)
    requires p > 0
    ensures |r| == if name in files then PaddedSize(|files[name]|, p) else 0
  {
    if name in files then PageOf(files[name], p) else []
  }

  /** The output before the header is written back: the header page, then
      the sections in order, each page aligned. */
  function Assembled(files: Files, samsung: bool): (a: seq<byte>)
    requires SaneInputs(files) && HeaderAccepted(files)
    ensures |a| >= HeaderSize
  {
    var p := PageSize(files);
    PageOf(files[BootHdrName], p) + Piece(files, KernelName, p) + Piece(files, RamdiskName, p) +
    (if samsung then Piece(files, DtbName, p) else [])
  }

  /** boothdr.img's header with the section results stored in its size words. */
  function FinalHeader(files: Files, samsung: bool): (h: Header)
    requires HeaderAccepted(files)
  {
    var h0 := Decode(files[BootHdrName]);
    var h1 := h0.(kernelSize := Stored(SectionResult(files, KernelName)));
    var h2 := h1.(ramdiskSize := Stored(SectionResult(files, RamdiskName)));
    if samsung then h2.(unused := Stored(SectionResult(files, DtbName))) else h2
  }

  /** Combine succeeds exactly when the header is accepted and no section is
      an empty file; the image is then the assembled sections with the final
      header written over its first HeaderSize bytes. */
  lemma CombineResult(files: Files, samsung: bool, denied: set<string>)
    requires SaneInputs(files) && ResultName !in denied
    ensures CombineImage(files, samsung, denied).Done? <==> Completes(files, samsung)
    ensures Completes(files, samsung) ==>
      CombineImage(files, samsung, denied) == Done(PatchHeader(Assembled(files, samsung), FinalHeader(files, samsung)))
  {
    if HeaderAccepted(files) {
      var p := PageSize(files);
      var h0 := Decode(files[BootHdrName]);
      assert Signed(h0.pageSize) == p;
      var hc := CopyHeader(files);
      var k := Append(hc.out, KernelName, p, files);
      AppendIsPiece(hc.out, KernelName, p, files);
      var h1 := h0.(kernelSize := Stored(k.total));
      assert k.total == SectionResult(files, KernelName);
      SizeCheck(files, KernelName);
      if h1.kernelSize != 0 {
        var rd := Append(k.out, RamdiskName, p, files);
        AppendIsPiece(k.out, RamdiskName, p, files);
        var h2 := h1.(ramdiskSize := Stored(rd.total));
        assert rd.total == SectionResult(files, RamdiskName);
        SizeCheck(files, RamdiskName);
        if h2.ramdiskSize != 0 {
          if samsung {
            var d := Append(rd.out, DtbName, p, files);
            AppendIsPiece(rd.out, DtbName, p, files);
            assert d.out == Assembled(files, samsung);
            var h3 := h2.(unused := Stored(d.total));
            assert d.total == SectionResult(files, DtbName);
            SizeCheck(files, DtbName);
            assert h3 == FinalHeader(files, samsung);
            if h3.unused != 0 {
              assert CombineImage(files, samsung, denied) == Done(PatchHeader(d.out, h3));
            }
          } else {
            assert rd.out == Assembled(files, samsung);
            assert h2 == FinalHeader(files, samsung);
            assert CombineImage(files, samsung, denied) == Done(PatchHeader(rd.out, h2));
          }
        }
      }
    }
  }

  /** The `<= 0` test on a stored size fails exactly for an empty file. */
  lemma SizeCheck(files: Files, name: string)
    requires name in files ==> |files[name]| < Two31
    ensures Stored(SectionResult(files, name)) != 0 <==> PassesSizeCheck(files, name)
  {
    if name !in files {
      StoredMinusOne();
    }
  }

  /** `data` sits at offset `o` of `a`, followed by zeros up to its padded length. */
  predicate Placed(a: seq<byte>, o: nat, data: seq<byte>, p: nat)
    requires p > 0
  {
    && o + PaddedSize(|data|, p) <= |a|
    && a[o..o + |data|] == data
    && forall i :: o + |data| <= i < o + PaddedSize(|data|, p) ==> a[i] == 0
  }

  /** Header page `b`, then `K`, `R` and (when `withD`) `D`: every section
      starts where the padded lengths before it end, each is followed by
      zeros up to the next page boundary, and `a` ends with the last. */
  predicate Stacked(a: seq<byte>, b: seq<byte>, K: seq<byte>, R: seq<byte>, D: seq<byte>, withD: bool, p: nat)
    requires p > 0
  {
    var kOff := PaddedSize(|b|, p);
    var rOff := kOff + PaddedSize(|K|, p);
    var dOff := rOff + PaddedSize(|R|, p);
    && Placed(a, 0, b, p) && Placed(a, kOff, K, p) && Placed(a, rOff, R, p)
    && (withD ==> Placed(a, dOff, D, p))
    && |a| == dOff + (if withD then PaddedSize(|D|, p) else 0)
  }

  /** The assembled sections are stacked page by page in the order kernel,
      ramdisk, device tree, after the header page.  A section file that
      cannot be opened, which the run does not catch, takes no room. */
  lemma SectionOffsets(files: Files, samsung: bool)
    requires SaneInputs(files) && HeaderAccepted(files)
    ensures Stacked(Assembled(files, samsung), files[BootHdrName], Contents(files, KernelName), Contents(files, RamdiskName),
                    if samsung then Contents(files, DtbName) else [], samsung, PageSize(files))
  {
    var p, b := PageSize(files), files[BootHdrName];
    var K, R := Contents(files, KernelName), Contents(files, RamdiskName);
    var D := if samsung then Contents(files, DtbName) else [];
    PieceOfContents(files, KernelName, p);
    PieceOfContents(files, RamdiskName, p);
    PieceOfContents(files, DtbName, p);
    assert Assembled(files, samsung) == PageOf(b, p) + PageOf(K, p) + PageOf(R, p) + (if samsung then PageOf(D, p) else []);
    FourPages(b, K, R, D, samsung, p);
  }

  /** What file `name` contributes to the image: its bytes, or nothing when
      it cannot be opened. */
  function Contents(files: Files, name: string): (c: seq<byte>)
  {
    if name in files then files[name] else []
  }

  /** `do_part` appends the file's contents page aligned, and nothing when
      the file cannot be opened. */
  lemma AppendContents(out: seq<byte>, name: string, p: int, files: Files)
    requires p > 0 && (name in files ==> |files[name]| < Two31)
    ensures Append(out, name, p, files).out == out + PageOf(Contents(files, name), p)
  {
    AppendIsPiece(out, name, p, files);
    PieceOfContents(files, name, p);
  }

  lemma PieceOfContents(files: Files, name: string, p: nat)
    requires p > 0
    ensures Piece(files, name, p) == PageOf(Contents(files, name), p)
  {
    assert PageOf([], p) == [];
  }

  /** Three page-aligned files, then optionally a fourth: where each one lies. */
  lemma FourPages(b: seq<byte>, K: seq<byte>, R: seq<byte>, D: seq<byte>, withD: bool, p: nat)
    requires p > 0
    ensures Stacked(PageOf(b, p) + PageOf(K, p) + PageOf(R, p) + (if withD then PageOf(D, p) else []),
                    b, K, R, D, withD, p)
  {
    var hb, hk, hr := PageOf(b, p), PageOf(K, p), PageOf(R, p);
    var tail := if withD then PageOf(D, p) else [];
    var a := hb + hk + hr + tail;
    PieceAt([], b, p, hk + hr + tail);
    assert a == [] + hb + (hk + hr + tail);
    PieceAt(hb, K, p, hr + tail);
    assert a == hb + hk + (hr + tail);
    PieceAt(hb + hk, R, p, tail);
    if withD {
      PieceAt(hb + hk + hr, D, p, []);
      assert a == hb + hk + hr + PageOf(D, p) + [];
    }
  }

  /** A page-aligned piece sits at the end of what precedes it. */
  lemma PieceAt(pre: seq<byte>, data: seq<byte>, p: nat, post: seq<byte>)
    requires p > 0
    ensures Placed(pre + PageOf(data, p) + post, |pre|, data, p)
  {
    var a, o := pre + PageOf(data, p) + post, |pre|;
    assert a[o..o + |data|] == data;
  }

  /** The final header record is boothdr.img's first HeaderSize bytes with
      the kernel_size, ramdisk_size and (Samsung only) unused words
      rewritten, and every other byte kept. */
  lemma FinalHeaderBytes(files: Files, samsung: bool)
    requires HeaderAccepted(files)
    ensures var e, b := Encode(FinalHeader(files, samsung)), files[BootHdrName];
      && e[FieldOffset(KernelSizeField)..FieldOffset(KernelSizeField) + 4] == LeBytes(Stored(SectionResult(files, KernelName)))
      && e[FieldOffset(RamdiskSizeField)..FieldOffset(RamdiskSizeField) + 4] == LeBytes(Stored(SectionResult(files, RamdiskName)))
      && (samsung ==> e[FieldOffset(UnusedField)..FieldOffset(UnusedField) + 4] == LeBytes(Stored(SectionResult(files, DtbName))))
      && forall i :: (0 <= i < HeaderSize && !InWord(i, KernelSizeField) && !InWord(i, RamdiskSizeField) &&
                      !(samsung && InWord(i, UnusedField))) ==> e[i] == b[i]
  {
    var b := files[BootHdrName];
    SizeWordsLocal(Decode(b), Stored(SectionResult(files, KernelName)), Stored(SectionResult(files, RamdiskName)),
                   Stored(SectionResult(files, DtbName)), samsung);
    assert Encode(Decode(b)) == b[..HeaderSize];
  }

  /** Setting the kernel and ramdisk size words, and optionally `unused`,
      rewrites those words' bytes and no others. */
  lemma SizeWordsLocal(h: Header, k: u32, r: u32, u: u32, withU: bool)
    ensures var h2 := h.(kernelSize := k).(ramdiskSize := r);
      var e := Encode(if withU then h2.(unused := u) else h2);
      && e[FieldOffset(KernelSizeField)..FieldOffset(KernelSizeField) + 4] == LeBytes(k)
      && e[FieldOffset(RamdiskSizeField)..FieldOffset(RamdiskSizeField) + 4] == LeBytes(r)
      && (withU ==> e[FieldOffset(UnusedField)..FieldOffset(UnusedField) + 4] == LeBytes(u))
      && forall i :: (0 <= i < HeaderSize && !InWord(i, KernelSizeField) && !InWord(i, RamdiskSizeField) &&
                      !(withU && InWord(i, UnusedField))) ==> e[i] == Encode(h)[i]
  {
    var h1 := WithWord(h, KernelSizeField, k);
    var h2 := WithWord(h1, RamdiskSizeField, r);
    assert h1 == h.(kernelSize := k);
    assert h2 == h1.(ramdiskSize := r);
    WithWordLocal(h, KernelSizeField, k);
    WithWordLocal(h1, RamdiskSizeField, r);
    EncodeWord(h2, KernelSizeField);
    if withU {
      var h3 := WithWord(h2, UnusedField, u);
      assert h3 == h2.(unused := u);
      WithWordLocal(h2, UnusedField, u);
      EncodeWord(h3, KernelSizeField);
      EncodeWord(h3, RamdiskSizeField);
    }
  }

  /** A section file that cannot be opened is not caught: its size word is
      written as 0xFFFFFFFF and the run completes. */
  lemma OpenFailureNotCaught(files: Files, samsung: bool, denied: set<string>)
    requires SaneInputs(files) && ResultName !in denied && HeaderAccepted(files)
    requires KernelName !in files
    requires PassesSizeCheck(files, RamdiskName) && (samsung ==> PassesSizeCheck(files, DtbName))
    ensures CombineImage(files, samsung, denied).Done?
    ensures Decode(CombineImage(files, samsung, denied).image).kernelSize == 0xFFFF_FFFF
  {
    CombineResult(files, samsung, denied);
    StoredMinusOne();
    assert FinalHeader(files, samsung).kernelSize == Stored(-1);
  }

  /** An empty kernel file stops the run after the header page: result.img
      holds boothdr.img, page aligned, with its header not rewritten. */
  lemma EmptyKernelAborts(files: Files, samsung: bool, denied: set<string>)
    requires SaneInputs(files) && ResultName !in denied && HeaderAccepted(files)
    requires KernelName in files && |files[KernelName]| == 0
    ensures CombineImage(files, samsung, denied) == Aborted(PageOf(files[BootHdrName], PageSize(files)))
  {
    assert PageOf(files[KernelName], PageSize(files)) == [];
  }
}

=== FILE: paging.dfy ===
/**
 Page-alignment arithmetic of the boot-image format: every section is
 stored rounded up to a whole number of pages.  Split computes the rounded
 length directly; combine computes the number of zero bytes to append.
 The two formulas are independent and are proved to agree.
 */
module Paging {

  /** The length a section of `n` bytes occupies in the image. */
  function PaddedSize(n: nat, p: nat): (r: nat)
    requires p > 0
    ensures r % p == 0
    ensures n <= r < n + p
  {
    var q := (n + p - 1) / p;
    MultipleHasNoRemainder(q, p);
    q * p
  }

  /** The number of zero bytes that follow a section of `n` bytes. */
  function Padding(n: nat, p: nat): (r: nat)
    requires p > 0
    ensures r < p
    ensures r == 0 <==> n % p == 0
  {
    var m := n % p;
    if m != 0 then p - m else 0
  }

  /** Section length plus padding is the padded length. */
  lemma PaddingCompletesPage(n: nat, p: nat)
    requires p > 0
    ensures n + Padding(n, p) == PaddedSize(n, p)
  {
    var q, m := n / p, n % p;
    assert n == q * p + m;
    if m != 0 {
      DivModUnique(n + p - 1, p, q + 1, m - 1);
    } else {
      DivModUnique(n + p - 1, p, q, p - 1);
    }
  }

  lemma PaddedSizeIdempotent(n: nat, p: nat)
    requires p > 0
    ensures PaddedSize(PaddedSize(n, p), p) == PaddedSize(n, p)
  {
    var r := PaddedSize(n, p);
    PaddingCompletesPage(r, p);
  }

  /** The padded length is the least multiple of the page size that holds `n` bytes. */
  lemma PaddedSizeIsLeast(n: nat, p: nat, m: nat)
    requires p > 0
    requires m % p == 0 && n <= m
    ensures PaddedSize(n, p) <= m
  {
    var r := PaddedSize(n, p);
    if r > m {
      MultiplesDifferByAPage(r, m, p);
    }
  }

  /** A page-aligned length pads to itself. */
  lemma AlignedIsPadded(n: nat, p: nat)
    requires p > 0 && n % p == 0
    ensures PaddedSize(n, p) == n
  {
    PaddingCompletesPage(n, p);
  }

  // Arithmetic helpers.

  lemma DivModUnique(a: int, p: int, q: int, r: int)
    requires p > 0 && 0 <= r < p && a == q * p + r
    ensures a / p == q && a % p == r
  {
    var q', r' := a / p, a % p;
    assert (q - q') * p == r' - r;
    if q > q' {
      MulAtLeast(q - q', p);
    } else if q < q' {
      MulAtLeast(q' - q, p);
    }
  }

  lemma MulAtLeast(k: int, p: int)
    requires k >= 1 && p > 0
    ensures k * p >= p
  {
  }

  lemma MultipleHasNoRemainder(k: nat, p: nat)
    requires p > 0
    ensures (k * p) % p == 0
  {
    DivModUnique(k * p, p, k, 0);
  }

  lemma MultiplesDifferByAPage(a: nat, b: nat, p: nat)
    requires p > 0 && a % p == 0 && b % p == 0 && a > b
    ensures a - b >= p
  {
    var qa, qb := a / p, b / p;
    assert a == qa * p && b == qb * p;
    MulSub(qa, qb, p);
    if qa - qb < 1 {
      MulNonPositive(qa - qb, p);
    }
    MulAtLeast(qa - qb, p);
  }

  lemma MulSub(x: int, y: int, p: int)
    ensures x * p - y * p == (x - y) * p
  {
  }

  lemma MulNonPositive(k: int, p: int)
    requires k <= 0 && p > 0
    ensures k * p <= 0
  {
  }

  /** Scenario: a 5000-byte kernel on 2048-byte pages takes three pages. */
  lemma KernelOf5000Bytes()
    ensures PaddedSize(5000, 2048) == 6144 && Padding(5000, 2048) == 1144
  {
  }
}

=== FILE: round_trip.dfy ===
/**
 The two tools against each other: combining a directory and splitting the
 image it produces gives the sections back.  Combine writes the section
 sizes into the header, so the boothdr.img that comes back carries them;
 every other byte of the first page is the original's.
 */
module RoundTrip {
  import opened Bytes
  import opened Paging
  import opened BootImg
  import opened Sections
  import opened Split
  import opened Combine

  /** A directory the two tools take apart and put together losslessly:
      boothdr.img is exactly one page long, the page size divides split's
      chunk size, no second bootloader is declared, every section is
      present and non-empty, and outside Samsung mode the `unused` word is
      zero (otherwise split would look for a device tree that combine never
      wrote). */
  predicate Combinable(files: Files, samsung: bool) {
    && SaneInputs(files) && HeaderAccepted(files)
    && |files[BootHdrName]| == Decode(files[BootHdrName]).pageSize
    && DividesChunk(Decode(files[BootHdrName]).pageSize)
    && KernelName in files && |files[KernelName]| > 0
    && RamdiskName in files && |files[RamdiskName]| > 0
    && (samsung ==> DtbName in files && |files[DtbName]| > 0)
    && (!samsung ==> Decode(files[BootHdrName]).unused == 0)
  }

  /** The files split writes for a combined image: the sections unchanged,
      and boothdr.img with the final header over its first HeaderSize bytes. */
  function Recovered(files: Files, samsung: bool): (fs: Files)
    requires Combinable(files, samsung)
    ensures fs.Keys == {BootHdrName, KernelName, RamdiskName} + (if samsung then {DtbName} else {})
  {
    var b := files[BootHdrName];
    FilesOf(Encode(FinalHeader(files, samsung)) + b[HeaderSize..], files[KernelName], files[RamdiskName],
            if samsung then files[DtbName] else [], samsung)
  }

  /** A split directory with the given contents; dtb.img only when `withDtb`. */
  function FilesOf(hdr: seq<byte>, K: seq<byte>, R: seq<byte>, D: seq<byte>, withDtb: bool): (fs: Files)
    ensures fs.Keys == {BootHdrName, KernelName, RamdiskName} + (if withDtb then {DtbName} else {})
  {
    var base := map[BootHdrName := hdr, KernelName := K, RamdiskName := R];
    if withDtb then base[DtbName := D] else base
  }

  /** Splitting what combine wrote succeeds without warnings and returns
      kernel.img, ramdisk.img and (Samsung) dtb.img exactly as they were. */
  lemma SplitCombined(files: Files, samsung: bool, denied: set<string>)
    requires Combinable(files, samsung)
    requires ResultName !in denied && {BootHdrName, KernelName, RamdiskName, DtbName} !! denied
    ensures CombineImage(files, samsung, denied).Done?
    ensures SplitImage(CombineImage(files, samsung, denied).image, samsung, denied) ==
              SplitOutcome(true, Recovered(files, samsung), [])
  {
    var b := files[BootHdrName];
    var K, R := files[KernelName], files[RamdiskName];
    var D := if samsung then files[DtbName] else [];
    var a, H := Assembled(files, samsung), FinalHeader(files, samsung);
    assert CombineImage(files, samsung, denied) == Done(PatchHeader(a, H)) by {
      CombineResult(files, samsung, denied);
    }
    AssembledSlices(files, samsung);
    SplitPatched(a, H, b, K, R, D, samsung, denied);
    assert Recovered(files, samsung) == FilesOf(Encode(H) + b[HeaderSize..], K, R, D, samsung);
  }

  /** Splitting an image whose header record describes the sections laid out
      after it, back to back from the first page on, gives those sections. */
  lemma SplitPatched(a: seq<byte>, H: Header, b: seq<byte>, K: seq<byte>, R: seq<byte>, D: seq<byte>,
                     samsung: bool, denied: set<string>)
    requires LaidOut(a, H, b, K, R, D, samsung)
    requires {BootHdrName, KernelName, RamdiskName, DtbName} !! denied
    ensures SplitImage(PatchHeader(a, H), samsung, denied) ==
              SplitOutcome(true, FilesOf(Encode(H) + b[HeaderSize..], K, R, D, samsung), [])
  {
    var img := PatchHeader(a, H);
    assert HoldsSections(img, H);
    SplitLayout(img, samsung, denied);
    SlicesOfImage(img, a, H, b, K, R, D, samsung);
  }

  /** `a` holds page `b`, then `K`, `R` and `D` back to back, each page
      aligned, where header `H` says they are; `D` is non-empty exactly in
      Samsung mode. */
  predicate LaidOut(a: seq<byte>, H: Header, b: seq<byte>, K: seq<byte>, R: seq<byte>, D: seq<byte>, samsung: bool) {
    && |a| >= HeaderSize && |b| >= HeaderSize
    && HasMagic(H) && H.secondSize == 0 && DividesChunk(H.pageSize)
    && H.pageSize == |b| && H.kernelSize == |K| && H.ramdiskSize == |R| && H.unused == |D|
    && 0 < |K| < Two31 && 0 < |R| < Two31 && |D| < Two31
    && (samsung <==> |D| != 0)
    && DtbStart(H) + PaddedSize(|D|, H.pageSize) == |a|
    && a[..|b|] == b
    && a[KernelStart(H)..KernelStart(H) + |K|] == K
    && a[RamdiskStart(H)..RamdiskStart(H) + |R|] == R
    && a[DtbStart(H)..DtbStart(H) + |D|] == D
  }

  /** Where the assembled sections lie, in the terms of the final header. */
  lemma AssembledSlices(files: Files, samsung: bool)
    requires Combinable(files, samsung)
    ensures LaidOut(Assembled(files, samsung), FinalHeader(files, samsung), files[BootHdrName],
                    files[KernelName], files[RamdiskName], if samsung then files[DtbName] else [], samsung)
  {
    SectionOffsets(files, samsung);
    FinalHeaderFields(files, samsung);
    PlacedIsLaidOut(Assembled(files, samsung), FinalHeader(files, samsung), files[BootHdrName],
                    files[KernelName], files[RamdiskName], if samsung then files[DtbName] else [], samsung);
  }

  lemma PlacedIsLaidOut(a: seq<byte>, H: Header, b: seq<byte>, K: seq<byte>, R: seq<byte>, D: seq<byte>, samsung: bool)
    requires HasMagic(H) && H.secondSize == 0 && DividesChunk(H.pageSize) && |b| >= HeaderSize
    requires H.pageSize == |b| && H.kernelSize == |K| && H.ramdiskSize == |R| && H.unused == |D|
    requires 0 < |K| < Two31 && 0 < |R| < Two31 && |D| < Two31
    requires samsung <==> |D| != 0
    requires Stacked(a, b, K, R, D, samsung, H.pageSize)
    ensures LaidOut(a, H, b, K, R, D, samsung)
  {
    var p := H.pageSize;
    AlignedIsPadded(p, p);
    AlignedIsPadded(0, p);
    assert a[..|b|] == a[0..|b|];
  }

  /** The final header of a combinable directory describes its files. */
  lemma FinalHeaderFields(files: Files, samsung: bool)
    requires Combinable(files, samsung)
    ensures var H, b := FinalHeader(files, samsung), files[BootHdrName];
      && HasMagic(H) && H.secondSize == 0 && H.pageSize == |b| == PageSize(files)
      && H.kernelSize == |files[KernelName]| && H.ramdiskSize == |files[RamdiskName]|
      && H.unused == if samsung then |files[DtbName]| else 0
  {
    assert FinalHeader(files, samsung).magic == Decode(files[BootHdrName]).magic;
  }

  /** The combined image's slices, from those of the assembled sections. */
  lemma SlicesOfImage(img: seq<byte>, a: seq<byte>, H: Header, b: seq<byte>, K: seq<byte>, R: seq<byte>, D: seq<byte>,
                      withDtb: bool)
    requires HoldsSections(img, H) && |img| == |a| >= HeaderSize && |b| >= HeaderSize
    requires withDtb <==> H.unused != 0
    requires img[..HeaderSize] == Encode(H) && img[HeaderSize..] == a[HeaderSize..]
    requires H.pageSize == |b| && H.kernelSize == |K| && H.ramdiskSize == |R| && H.unused == |D|
    requires a[..|b|] == b
    requires a[KernelStart(H)..KernelStart(H) + |K|] == K
    requires a[RamdiskStart(H)..RamdiskStart(H) + |R|] == R
    requires a[DtbStart(H)..DtbStart(H) + |D|] == D
    ensures ExpectedFiles(img, H) == FilesOf(Encode(H) + b[HeaderSize..], K, R, D, withDtb)
  {
    var p := H.pageSize;
    CombinedSlice(img, a, HeaderSize, p);
    assert img[..p] == img[..HeaderSize] + img[HeaderSize..p];
    assert a[HeaderSize..p] == b[HeaderSize..];
    CombinedSlice(img, a, KernelStart(H), KernelStart(H) + |K|);
    CombinedSlice(img, a, RamdiskStart(H), RamdiskStart(H) + |R|);
    CombinedSlice(img, a, DtbStart(H), DtbStart(H) + |D|);
    FilesFromSlices(img, H, Encode(H) + b[HeaderSize..], K, R, D);
  }

  /** The expected files of an image, given what its slices hold. */
  lemma FilesFromSlices(img: seq<byte>, H: Header, hdr: seq<byte>, K: seq<byte>, R: seq<byte>, D: seq<byte>)
    requires HoldsSections(img, H)
    requires img[..H.pageSize] == hdr
    requires img[KernelStart(H)..KernelStart(H) + H.kernelSize] == K
    requires img[RamdiskStart(H)..RamdiskStart(H) + H.ramdiskSize] == R
    requires H.unused != 0 ==> img[DtbStart(H)..DtbStart(H) + H.unused] == D
    ensures ExpectedFiles(img, H) == FilesOf(hdr, K, R, D, H.unused != 0)
  {
  }

  /** Bytes of the combined image: the header record, then what was assembled. */
  lemma CombinedSlice(img: seq<byte>, a: seq<byte>, i: nat, j: nat)
    requires |img| == |a| >= HeaderSize
    requires img[HeaderSize..] == a[HeaderSize..]
    requires HeaderSize <= i <= j <= |img|
    ensures img[i..j] == a[i..j]
  {
    forall k | i <= k < j
      ensures img[k] == a[k]
    {
      assert img[k] == img[HeaderSize..][k - HeaderSize];
      assert a[k] == a[HeaderSize..][k - HeaderSize];
    }
  }

  /** A boothdr.img whose header already records the section sizes comes
      back byte for byte: the whole directory is a fixed point. */
  lemma SplitCombinedFixedPoint(files: Files, samsung: bool, denied: set<string>)
    requires Combinable(files, samsung)
    requires ResultName !in denied && {BootHdrName, KernelName, RamdiskName, DtbName} !! denied
    requires FinalHeader(files, samsung) == Decode(files[BootHdrName])
    ensures CombineImage(files, samsung, denied).Done?
    ensures var names := {BootHdrName, KernelName, RamdiskName} + (if samsung then {DtbName} else {});
      SplitImage(CombineImage(files, samsung, denied).image, samsung, denied).files ==
        map n | n in files && n in names :: files[n]
  {
    SplitCombined(files, samsung, denied);
    RecoveredUnchanged(files, samsung);
  }

  lemma RecoveredUnchanged(files: Files, samsung: bool)
    requires Combinable(files, samsung)
    requires FinalHeader(files, samsung) == Decode(files[BootHdrName])
    ensures var names := {BootHdrName, KernelName, RamdiskName} + (if samsung then {DtbName} else {});
      Recovered(files, samsung) == map n | n in files && n in names :: files[n]
  {
    var b := files[BootHdrName];
    assert Encode(Decode(b)) + b[HeaderSize..] == b;
    assert Recovered(files, samsung) ==
      FilesOf(b, files[KernelName], files[RamdiskName], if samsung then files[DtbName] else [], samsung);
    Restricted(files, samsung);
  }

  /** The split directory holding exactly the named files of `files`. */
  lemma Restricted(files: Files, samsung: bool)
    requires BootHdrName in files && KernelName in files && RamdiskName in files
    requires samsung ==> DtbName in files
    ensures var names := {BootHdrName, KernelName, RamdiskName} + (if samsung then {DtbName} else {});
      FilesOf(files[BootHdrName], files[KernelName], files[RamdiskName], if samsung then files[DtbName] else [], samsung)
        == map n | n in files && n in names :: files[n]
  {
    var names := {BootHdrName, KernelName, RamdiskName} + (if samsung then {DtbName} else {});
    var m := map n | n in files && n in names :: files[n];
    assert m.Keys == names;
  }
}

=== FILE: sections.dfy ===
/**
 The files the split and combine tools exchange.  A directory is modelled
 as a map from file name to contents; a name that is absent is a file
 that cannot be opened for reading.
 */
module Sections {
  import opened Bytes

  type Files = map<string, seq<byte>>

  /** The first page of an image, header included. */
  const BootHdrName: string := "boothdr.img"
  const KernelName: string := "kernel.img"
  const RamdiskName: string := "ramdisk.img"
  /** Device tree blob, present on Samsung images. */
  const DtbName: string := "dtb.img"
}

=== FILE: split.dfy ===
/**
 The split tool: reads an image through one cursor and writes the header
 page, kernel, ramdisk and device tree to their own files.

 A section is copied by a loop over 2048-byte chunks that reads the whole
 padded span of the section and writes every chunk in full except the
 last, of which it writes `sz % 2048` bytes (2048 when that is zero).  The
 section file therefore holds exactly the section's `sz` bytes only when
 the size and the padded size need the same number of chunks, which every
 page size dividing 2048 guarantees.  `ChunkedOutput` states what the loop
 writes in all cases; `ExtractChunked` is the loop itself.
 */
module Split {
  import opened Bytes
  import opened Paging
  import opened BootImg
  import opened Sections

  /** Size of the copy buffer. */
  const Chunk: nat := 2048

  /** Number of chunk-sized reads needed for `n` bytes. */
  function ChunkCount(n: nat): (c: nat) {
    (n + Chunk - 1) / Chunk
  }

  /** Bytes of the final chunk that reach the section file. */
  function LastWriteLen(sz: nat): (n: nat)
    ensures 0 < n <= Chunk
  {
    if sz % Chunk == 0 then Chunk else sz % Chunk
  }

  lemma ChunkBounds(n: nat)
    requires n > 0
    ensures ChunkCount(n) >= 1
    ensures Chunk * (ChunkCount(n) - 1) < n <= Chunk * ChunkCount(n)
  {
  }

  lemma ChunkCountOfRange(n: nat, c: nat)
    requires c >= 1 && Chunk * (c - 1) < n <= Chunk * c
    ensures ChunkCount(n) == c
  {
    DivModUnique(n + Chunk - 1, Chunk, c, n + Chunk - 1 - Chunk * c);
  }

  /** The full chunks and the last write add up to the section size. */
  lemma LastWriteCompletes(sz: nat)
    requires sz > 0
    ensures Chunk * (ChunkCount(sz) - 1) + LastWriteLen(sz) == sz
  {
    var c := ChunkCount(sz);
    ChunkBounds(sz);
    if sz % Chunk == 0 {
      DivModUnique(sz, Chunk, c, 0);
    } else {
      DivModUnique(sz, Chunk, c - 1, sz - Chunk * (c - 1));
    }
  }

  /** The bytes the chunk loop writes for a section of `sz` bytes whose
      padded span is `span`: all chunks but the last in full, then the first
      `LastWriteLen(sz)` bytes of the buffer, which holds the last chunk
      followed by whatever the previous chunk left behind. */
  function ChunkedOutput(span: seq<byte>, sz: nat): (w: seq<byte>)
    requires 0 < sz <= |span|
    ensures |w| == Chunk * (ChunkCount(|span|) - 1) + LastWriteLen(sz)
    ensures ChunkCount(sz) == ChunkCount(|span|) ==> w == span[..sz]
  {
    ChunkBounds(|span|);
    var full := Chunk * (ChunkCount(|span|) - 1);
    var last := span[full..];
    var stale := if full > 0 then span[full - Chunk + |last|..full] else [];
    assert full == 0 ==> LastWriteLen(sz) <= |last|;
    var w := span[..full] + (last + stale)[..LastWriteLen(sz)];
    LastWriteCompletes(sz);
    assert ChunkCount(sz) == ChunkCount(|span|) ==> w == span[..sz];
    w
  }

  /** Page sizes that divide the chunk size (512, 1024, 2048, ...). */
  predicate DividesChunk(p: int) {
    0 < p <= Chunk && Chunk % p == 0
  }

  /** With such a page size, padding never needs an extra chunk. */
  lemma AlignedPageKeepsChunkCount(sz: nat, p: nat)
    requires sz > 0 && DividesChunk(p)
    ensures ChunkCount(PaddedSize(sz, p)) == ChunkCount(sz)
  {
    var c := ChunkCount(sz);
    ChunkBounds(sz);
    var t := Chunk / p;
    assert Chunk == t * p;
    assert Chunk * c == (t * c) * p;
    MultipleHasNoRemainder(t * c, p);
    PaddedSizeIsLeast(sz, p, Chunk * c);
    ChunkCountOfRange(PaddedSize(sz, p), c);
  }

  /** A span that is already page aligned is copied exactly (the header page). */
  lemma AlignedSpanKeepsChunkCount(sz: nat, p: nat)
    requires sz > 0 && p > 0 && sz % p == 0
    ensures ChunkCount(PaddedSize(sz, p)) == ChunkCount(sz)
  {
    AlignedIsPadded(sz, p);
  }

  /** With 4096-byte pages a 100-byte section is written as 2148 bytes: the
      whole first chunk, then 100 bytes of the second, all of which past the
      first 100 bytes of the span are padding. */
  lemma WidePageWritesPadding(span: seq<byte>)
    requires |span| == 4096
    ensures PaddedSize(100, 4096) == |span|
    ensures ChunkedOutput(span, 100) == span[..2148]
  {
    assert ChunkCount(4096) == 2;
    assert span[..2048] + span[2048..][..100] == span[..2148];
  }

  /** With 3000-byte pages a 2000-byte section is written as 4048 bytes whose
      tail repeats bytes 952..2000 of the span left over in the buffer. */
  lemma StaleBufferRewritten(span: seq<byte>)
    requires |span| == 3000
    ensures PaddedSize(2000, 3000) == |span|
    ensures ChunkedOutput(span, 2000) == span + span[952..2000]
  {
    assert ChunkCount(3000) == 2;
    var last, stale := span[2048..], span[952..2048];
    assert (last + stale)[..2000] == last + stale[..1048];
    assert span[..2048] + last == span;
  }

  /** The outcome of copying one section: `do_part`'s result, the cursor
      in the image, and the files written so far. */
  datatype Part = Part(code: int, cursor: nat, files: Files)

  /** One section copy starting at cursor `pos`.  A non-positive size is
      returned unchanged without reading or creating anything; otherwise the
      file is created, the padded span is consumed and its chunked output
      written, and a short image leaves a file holding the full chunks read
      before the failure. */
  function Extract(name: string, sz: int, pageSz: int, image: seq<byte>, pos: nat,
                   files: Files, denied: set<string>): (r: Part)
    requires pos <= |image|
    requires sz > 0 ==> pageSz > 0
    ensures r.cursor <= |image|
    ensures sz <= 0 ==> r.code == sz && r.cursor == pos && r.files == files
    ensures sz > 0 ==> (r.code == 0 || r.code == -1)
    ensures sz > 0 ==> (r.code == 0 <==> name !in denied && pos + PaddedSize(sz, pageSz) <= |image|)
    ensures sz > 0 && r.code == 0 ==> r.cursor == pos + PaddedSize(sz, pageSz)
    ensures sz > 0 && r.code == 0 && ChunkCount(PaddedSize(sz, pageSz)) == ChunkCount(sz) ==>
              r.files == files[name := image[pos..pos + sz]]
    ensures name in denied ==> r.files == files
    ensures r.files == files || (name in r.files && r.files == files[name := r.files[name]])
  {
    if sz <= 0 then Part(sz, pos, files)
    else if name in denied then Part(-1, pos, files)
    else
      var padded := PaddedSize(sz, pageSz);
      var avail := image[pos..];
      if |avail| < padded then
        Part(-1, |image|, files[name := avail[..Chunk * (|avail| / Chunk)]])
      else
        assert avail[..padded][..sz] == image[pos..pos + sz];
        Part(0, pos + padded, files[name := ChunkedOutput(avail[..padded], sz)])
  }

  /** `Extract` as split's `do_part` computes it: a loop over 2048-byte chunks
      sharing one buffer. */
  method ExtractChunked(name: string, sz: int, pageSz: int, image: seq<byte>, pos: nat,
                        files: Files, denied: set<string>) returns (r: Part)
    requires pos <= |image|
    requires sz > 0 ==> pageSz > 0
    ensures r == Extract(name, sz, pageSz, image, pos, files, denied)
  {
    if sz <= 0 {
      return Part(sz, pos, files);
    }
    if name in denied {
      return Part(-1, pos, files);
    }
    var padded := PaddedSize(sz, pageSz);
    var ok, cur, written := CopyChunks(image, pos, sz, padded);
    if !ok {
      ExtractShort(name, sz, pageSz, image, pos, files, denied, cur);
      return Part(-1, |image|, files[name := written]);
    }
    ExtractWhole(name, sz, pageSz, image, pos, files, denied);
    return Part(0, cur, files[name := written]);
  }

  /** The chunk loop of one section copy.  On a short read it stops at the
      chunk holding the end of the image, having written the chunks before it. */
  method CopyChunks(image: seq<byte>, pos: nat, sz: nat, padded: nat)
    returns (ok: bool, cur: nat, written: seq<byte>)
    requires pos <= |image| && 0 < sz <= padded
    ensures ok <==> pos + padded <= |image|
    ensures ok ==> cur == pos + padded && written == ChunkedOutput(image[pos..pos + padded], sz)
    ensures !ok ==> pos <= cur <= |image| && (cur - pos) % Chunk == 0 && written == image[pos..cur]
    ensures !ok ==> |image| - cur < Chunk && |image| - cur < padded - (cur - pos)
  {
    // The stack buffer starts uninitialised; its initial contents are never written out.
    var buf := Zeros(Chunk);
    written := [];
    cur := pos;
    var left: int := padded;
    while left > 0
      invariant pos <= cur <= |image|
      invariant 0 <= left && (cur - pos) + left == padded
      invariant |buf| == Chunk
      invariant left > 0 ==> (cur - pos) % Chunk == 0 && written == image[pos..cur]
      invariant left > 0 && cur > pos ==> buf == image[cur - Chunk..cur]
      invariant left == 0 ==> written == ChunkedOutput(image[pos..pos + padded], sz)
    {
      var n := if Chunk < left then Chunk else left;
      if |image| - cur < n {
        return false, cur, written;
      }
      var next := image[cur..cur + n] + buf[n..];
      if left - n <= 0 {
        LastStep(image, pos, padded, sz, cur, buf, written);
        written := written + next[..LastWriteLen(sz)];
      } else {
        FullStep(image, pos, cur, buf, written);
        written := written + next[..n];
      }
      buf := next;
      cur := cur + n;
      left := left - n;
    }
    return true, cur, written;
  }

  lemma ExtractShort(name: string, sz: int, pageSz: int, image: seq<byte>, pos: nat,
                     files: Files, denied: set<string>, cur: nat)
    requires sz > 0 && pageSz > 0 && name !in denied
    requires pos <= cur <= |image| && (cur - pos) % Chunk == 0
    requires |image| - cur < Chunk && |image| - cur < PaddedSize(sz, pageSz) - (cur - pos)
    ensures Extract(name, sz, pageSz, image, pos, files, denied) == Part(-1, |image|, files[name := image[pos..cur]])
  {
    ShortImage(|image| - pos, cur - pos);
    assert image[pos..][..cur - pos] == image[pos..cur];
  }

  lemma ExtractWhole(name: string, sz: int, pageSz: int, image: seq<byte>, pos: nat,
                     files: Files, denied: set<string>)
    requires sz > 0 && pageSz > 0 && name !in denied
    requires pos + PaddedSize(sz, pageSz) <= |image|
    ensures Extract(name, sz, pageSz, image, pos, files, denied) ==
            Part(0, pos + PaddedSize(sz, pageSz), files[name := ChunkedOutput(image[pos..pos + PaddedSize(sz, pageSz)], sz)])
  {
    assert image[pos..][..PaddedSize(sz, pageSz)] == image[pos..pos + PaddedSize(sz, pageSz)];
  }

  /** A full chunk read at `cur` extends what was written by that chunk. */
  lemma FullStep(image: seq<byte>, pos: nat, cur: nat, buf: seq<byte>, written: seq<byte>)
    requires pos <= cur && cur + Chunk <= |image| && |buf| == Chunk
    requires (cur - pos) % Chunk == 0 && written == image[pos..cur]
    ensures var next := image[cur..cur + Chunk] + buf[Chunk..];
      && next == image[cur..cur + Chunk]
      && written + next[..Chunk] == image[pos..cur + Chunk]
      && (cur + Chunk - pos) % Chunk == 0
  {
    var next := image[cur..cur + Chunk] + buf[Chunk..];
    assert next == image[cur..cur + Chunk];
    assert next[..Chunk] == next;
  }

  /** The final read at `cur`, over the buffer the previous chunk left. */
  lemma LastStep(image: seq<byte>, pos: nat, padded: nat, sz: nat, cur: nat, buf: seq<byte>, written: seq<byte>)
    requires 0 < sz <= padded && pos <= cur < pos + padded <= |image| && padded - (cur - pos) <= Chunk
    requires |buf| == Chunk && (cur - pos) % Chunk == 0 && written == image[pos..cur]
    requires cur > pos ==> buf == image[cur - Chunk..cur]
    ensures var n := pos + padded - cur;
      written + (image[cur..cur + n] + buf[n..])[..LastWriteLen(sz)] == ChunkedOutput(image[pos..pos + padded], sz)
  {
    var span, off, n := image[pos..pos + padded], cur - pos, pos + padded - cur;
    assert off > 0 ==> buf == span[off - Chunk..off];
    assert image[cur..cur + n] == span[off..];
    assert written == span[..off];
    LastChunk(span, sz, off, buf, image[cur..cur + n] + buf[n..]);
  }

  /** A read that comes up short happens at the chunk holding the end of the image. */
  lemma ShortImage(avail: nat, off: nat)
    requires off % Chunk == 0 && off <= avail < off + Chunk
    ensures Chunk * (avail / Chunk) == off
  {
    DivModUnique(avail, Chunk, off / Chunk, avail - off);
  }

  /** The write after the final read produces `ChunkedOutput`. */
  lemma LastChunk(span: seq<byte>, sz: nat, off: nat, before: seq<byte>, buf: seq<byte>)
    requires 0 < sz <= |span|
    requires off % Chunk == 0 && off < |span| <= off + Chunk
    requires |before| == Chunk
    requires off > 0 ==> before == span[off - Chunk..off]
    requires buf == span[off..] + before[|span| - off..]
    ensures span[..off] + buf[..LastWriteLen(sz)] == ChunkedOutput(span, sz)
  {
    ChunkCountOfRange(|span|, off / Chunk + 1);
    assert Chunk * (ChunkCount(|span|) - 1) == off;
    var last := span[off..];
    if off == 0 {
      ChunkBounds(|span|);
      assert LastWriteLen(sz) <= |last|;
      assert buf[..LastWriteLen(sz)] == (last + [])[..LastWriteLen(sz)];
    } else {
      assert before[|span| - off..] == span[off - Chunk + |last|..off];
    }
  }

  /** What split checks before it writes anything. */
  predicate Accepts(h: Header) {
    HasMagic(h) && h.kernelSize != 0 && h.ramdiskSize != 0
  }

  /** Reading and validating the header, then capturing the whole first page
      (`page_size` bytes from offset 0) as boothdr.img. */
  function CaptureHeader(image: seq<byte>, denied: set<string>): (r: Part)
    ensures r.cursor <= |image|
    ensures (|image| < HeaderSize || !Accepts(Decode(image))) ==> r.code != 0 && r.files == map[]
    ensures r.code == 0 ==> |image| >= HeaderSize && Accepts(Decode(image)) && Decode(image).pageSize < Two31
    ensures r.code == 0 && Decode(image).pageSize != 0 ==>
              r.cursor == Decode(image).pageSize && r.files == map[BootHdrName := image[..Decode(image).pageSize]]
    ensures |image| >= HeaderSize && Accepts(Decode(image)) && 0 < Decode(image).pageSize < Two31 ==>
              (r.code == 0 <==> BootHdrName !in denied && Decode(image).pageSize <= |image|)
  {
    if |image| < HeaderSize then Part(-1, |image|, map[])
    else
      var h := Decode(image);
      if !Accepts(h) then Part(-1, HeaderSize, map[])
      else
        var p := Signed(h.pageSize);
        HeaderPageAligned(p);
        Extract(BootHdrName, p, p, image, 0, map[], denied)
  }

  /** The header page is its own padded span, so it keeps its chunk count. */
  lemma HeaderPageAligned(p: int)
    ensures p > 0 ==> PaddedSize(p, p) == p && ChunkCount(PaddedSize(p, p)) == ChunkCount(p)
  {
    if p > 0 {
      AlignedSpanKeepsChunkCount(p, p);
      AlignedIsPadded(p, p);
    }
  }

  datatype Warning = SecondSizeNonZero | NoDeviceTree

  datatype SplitOutcome = SplitOutcome(ok: bool, files: Files, warnings: seq<Warning>)

  /** Split never checks the page size before dividing by it, which it
      first does once the header is accepted. */
  predicate PageSizeSet(image: seq<byte>) {
    |image| < HeaderSize || !Accepts(Decode(image)) || Decode(image).pageSize != 0
  }

  /** Where split expects each section: back to back after the header page.
      The second-bootloader section is not skipped. */
  function KernelStart(h: Header): (o: nat) {
    h.pageSize
  }

  function RamdiskStart(h: Header): (o: nat)
    requires h.pageSize > 0
  {
    KernelStart(h) + PaddedSize(h.kernelSize, h.pageSize)
  }

  function DtbStart(h: Header): (o: nat)
    requires h.pageSize > 0
  {
    RamdiskStart(h) + PaddedSize(h.ramdiskSize, h.pageSize)
  }

  /** The whole split run: header page, kernel, ramdisk, then the device tree
      sized by `unused`.  `-samsung` only decides whether a zero `unused`
      draws a warning; a non-zero `second_size` draws one as well. */
  function SplitImage(image: seq<byte>, samsung: bool, denied: set<string>): (r: SplitOutcome)
    requires PageSizeSet(image)
    ensures (|image| < HeaderSize || !Accepts(Decode(image))) ==> !r.ok && r.files == map[]
    ensures r.files.Keys <= {BootHdrName, KernelName, RamdiskName, DtbName}
    ensures r.ok ==> BootHdrName in r.files && KernelName in r.files && RamdiskName in r.files
    ensures r.ok ==> (DtbName in r.files <==> Decode(image).unused != 0)
    ensures r.ok ==> (SecondSizeNonZero in r.warnings <==> Decode(image).secondSize != 0)
    ensures r.ok ==> (NoDeviceTree in r.warnings <==> samsung && Decode(image).unused == 0)
  {
    var hp := CaptureHeader(image, denied);
    if hp.code != 0 then SplitOutcome(false, hp.files, [])
    else SplitSections(image, Decode(image), samsung, hp.cursor, hp.files, denied)
  }

  /** The sections after the header page, read from `pos` on. */
  function SplitSections(image: seq<byte>, h: Header, samsung: bool, pos: nat,
                         files: Files, denied: set<string>): (r: SplitOutcome)
    requires pos <= |image| && 0 < h.pageSize < Two31
    requires files.Keys <= {BootHdrName}
    requires BootHdrName in files && h.kernelSize != 0 && h.ramdiskSize != 0
    ensures r.files.Keys <= {BootHdrName, KernelName, RamdiskName, DtbName}
    ensures r.ok ==> BootHdrName in r.files && KernelName in r.files && RamdiskName in r.files
    ensures r.ok ==> (DtbName in r.files <==> h.unused != 0)
    ensures r.ok ==> (SecondSizeNonZero in r.warnings <==> h.secondSize != 0)
    ensures r.ok ==> (NoDeviceTree in r.warnings <==> samsung && h.unused == 0)
  {
    var page := Signed(h.pageSize);
    var k := Extract(KernelName, Signed(h.kernelSize), page, image, pos, files, denied);
    if k.code != 0 then SplitOutcome(false, k.files, [])
    else
      var rd := Extract(RamdiskName, Signed(h.ramdiskSize), page, image, k.cursor, k.files, denied);
      if rd.code != 0 then SplitOutcome(false, rd.files, [])
      else
        var warnings := if h.secondSize != 0 then [SecondSizeNonZero] else [];
        if samsung && h.unused == 0 then
          SplitOutcome(true, rd.files, warnings + [NoDeviceTree])
        else
          var d := Extract(DtbName, Signed(h.unused), page, image, rd.cursor, rd.files, denied);
          SplitOutcome(d.code == 0, d.files, warnings)
  }

  /** An `unused` word of 2^31 or more reaches `do_part` as a negative size,
      which it returns at once: the run fails and dtb.img is never written. */
  lemma WideUnusedFails(image: seq<byte>, h: Header, samsung: bool, pos: nat,
                        files: Files, denied: set<string>)
    requires pos <= |image| && 0 < h.pageSize < Two31
    requires files.Keys <= {BootHdrName}
    requires BootHdrName in files && h.kernelSize != 0 && h.ramdiskSize != 0
    requires h.unused >= Two31
    ensures var r := SplitSections(image, h, samsung, pos, files, denied);
      !r.ok && DtbName !in r.files
  {
  }

  /** The sizes split passes to `do_part` are read through an `int`; these
      are the headers whose sizes survive that unchanged. */
  predicate SizesFitInt(h: Header) {
    h.kernelSize < Two31 && h.ramdiskSize < Two31 && h.unused < Two31
  }

  /** The warnings a successful run prints. */
  function Warnings(h: Header, samsung: bool): (w: seq<Warning>) {
    (if h.secondSize != 0 then [SecondSizeNonZero] else []) +
    (if samsung && h.unused == 0 then [NoDeviceTree] else [])
  }

  /** An image that holds every section its header declares, on a page size
      that divides split's chunk size. */
  predicate HoldsSections(image: seq<byte>, h: Header) {
    && Accepts(h) && SizesFitInt(h) && DividesChunk(h.pageSize)
    && DtbStart(h) + PaddedSize(h.unused, h.pageSize) <= |image|
  }

  /** The files such an image is expected to split into: boothdr.img is the
      first page, kernel.img and ramdisk.img follow, and dtb.img, sized by
      `unused`, follows the ramdisk whatever `second_size` says. */
  function ExpectedFiles(image: seq<byte>, h: Header): (fs: Files)
    requires HoldsSections(image, h)
    ensures fs.Keys == {BootHdrName, KernelName, RamdiskName} + (if h.unused != 0 then {DtbName} else {})
  {
    var base := map[BootHdrName := image[..h.pageSize],
                    KernelName := image[KernelStart(h)..KernelStart(h) + h.kernelSize],
                    RamdiskName := image[RamdiskStart(h)..RamdiskStart(h) + h.ramdiskSize]];
    if h.unused != 0 then base[DtbName := image[DtbStart(h)..DtbStart(h) + h.unused]] else base
  }

  /** Such an image splits into exactly the expected files, with the warnings
      its header calls for; `-samsung` changes nothing but the warnings. */
  lemma SplitLayout(image: seq<byte>, samsung: bool, denied: set<string>)
    requires |image| >= HeaderSize && HoldsSections(image, Decode(image))
    requires {BootHdrName, KernelName, RamdiskName, DtbName} !! denied
    ensures SplitImage(image, samsung, denied) ==
              SplitOutcome(true, ExpectedFiles(image, Decode(image)), Warnings(Decode(image), samsung))
  {
    var h := Decode(image);
    HeaderPageCaptured(image, denied);
    var files := map[BootHdrName := image[..h.pageSize]];
    assert SplitImage(image, samsung, denied) == SplitSections(image, h, samsung, h.pageSize, files, denied);
    SectionsLayout(image, h, samsung, files, denied);
  }

  lemma HeaderPageCaptured(image: seq<byte>, denied: set<string>)
    requires |image| >= HeaderSize && Accepts(Decode(image))
    requires 0 < Decode(image).pageSize < Two31 && Decode(image).pageSize <= |image|
    requires BootHdrName !in denied
    ensures var hp, p := CaptureHeader(image, denied), Decode(image).pageSize;
      hp.code == 0 && hp.cursor == p && hp.files == map[BootHdrName := image[..p]]
  {
  }

  lemma SectionsLayout(image: seq<byte>, h: Header, samsung: bool, files: Files, denied: set<string>)
    requires HoldsSections(image, h)
    requires {KernelName, RamdiskName, DtbName} !! denied
    requires files == map[BootHdrName := image[..h.pageSize]]
    ensures SplitSections(image, h, samsung, h.pageSize, files, denied) ==
              SplitOutcome(true, ExpectedFiles(image, h), Warnings(h, samsung))
  {
    var p := h.pageSize;
    var k := Extract(KernelName, h.kernelSize, p, image, p, files, denied);
    var rd := Extract(RamdiskName, h.ramdiskSize, p, image, k.cursor, k.files, denied);
    KernelAndRamdisk(image, h, files, denied);
    var warnings := if h.secondSize != 0 then [SecondSizeNonZero] else [];
    if samsung && h.unused == 0 {
      assert warnings + [NoDeviceTree] == Warnings(h, samsung);
    } else {
      assert warnings == Warnings(h, samsung);
      if h.unused != 0 {
        DtbExtracted(image, h, rd.files, denied);
      }
    }
  }

  /** The device tree of such an image is extracted whole. */
  lemma DtbExtracted(image: seq<byte>, h: Header, files: Files, denied: set<string>)
    requires HoldsSections(image, h) && h.unused != 0 && DtbName !in denied
    requires files == map[BootHdrName := image[..h.pageSize],
                          KernelName := image[KernelStart(h)..KernelStart(h) + h.kernelSize],
                          RamdiskName := image[RamdiskStart(h)..RamdiskStart(h) + h.ramdiskSize]]
    ensures var d := Extract(DtbName, h.unused, h.pageSize, image, DtbStart(h), files, denied);
      d.code == 0 && d.files == ExpectedFiles(image, h)
  {
    AlignedPageKeepsChunkCount(h.unused, h.pageSize);
  }

  /** The kernel and ramdisk of such an image are extracted whole, and the
      cursor ends at the device tree. */
  lemma KernelAndRamdisk(image: seq<byte>, h: Header, files: Files, denied: set<string>)
    requires HoldsSections(image, h)
    requires {KernelName, RamdiskName} !! denied
    requires files == map[BootHdrName := image[..h.pageSize]]
    ensures var p := h.pageSize;
      var k := Extract(KernelName, h.kernelSize, p, image, p, files, denied);
      var rd := Extract(RamdiskName, h.ramdiskSize, p, image, k.cursor, k.files, denied);
      && k.code == 0 && Signed(h.kernelSize) == h.kernelSize
      && rd.code == 0 && Signed(h.ramdiskSize) == h.ramdiskSize && Signed(h.unused) == h.unused
      && Signed(p) == p
      && rd.cursor == DtbStart(h)
      && rd.files == map[BootHdrName := image[..p],
                         KernelName := image[KernelStart(h)..KernelStart(h) + h.kernelSize],
                         RamdiskName := image[RamdiskStart(h)..RamdiskStart(h) + h.ramdiskSize]]
  {
    var p := h.pageSize;
    var k := Extract(KernelName, h.kernelSize, p, image, p, files, denied);
    AlignedPageKeepsChunkCount(h.kernelSize, p);
    assert k.code == 0 && k.cursor == RamdiskStart(h);
    var rd := Extract(RamdiskName, h.ramdiskSize, p, image, k.cursor, k.files, denied);
    AlignedPageKeepsChunkCount(h.ramdiskSize, p);
    assert rd.code == 0 && rd.cursor == DtbStart(h);
  }

  /** An image too short for its kernel stops at the kernel or earlier:
      ramdisk.img and dtb.img are never created. */
  lemma SplitTruncatedKernel(image: seq<byte>, samsung: bool, denied: set<string>)
    requires |image| >= HeaderSize
    requires Accepts(Decode(image)) && 0 < Decode(image).pageSize < Two31
    requires |image| < RamdiskStart(Decode(image))
    ensures var r := SplitImage(image, samsung, denied);
      !r.ok && RamdiskName !in r.files && DtbName !in r.files
  {
  }

  /** Scenario: a file of 608 zero bytes lacks the magic, so split fails
      without writing anything. */
  lemma ZeroImageRejected(denied: set<string>)
    ensures PageSizeSet(seq(HeaderSize, _ => 0))
    ensures var r := SplitImage(seq(HeaderSize, _ => 0), false, denied);
      !r.ok && r.files == map[]
  {
    var image: seq<byte> := seq(HeaderSize, _ => 0);
    assert image[..BootMagicSize] != BootMagic by {
      assert image[0] == 0;
    }
    MagicCheck(image);
  }

  /** `-samsung` changes the warnings and nothing else: the same files are
      written and the run succeeds or fails alike. */
  lemma SamsungOnlyWarns(image: seq<byte>, denied: set<string>)
    requires PageSizeSet(image)
    ensures SplitImage(image, true, denied).ok == SplitImage(image, false, denied).ok
    ensures SplitImage(image, true, denied).files == SplitImage(image, false, denied).files
  {
  }
}
